=== FILE: README.md ===
# Account request model

A Dafny model of the `AccountRequest` record of human-essentials: the
sign-up request a prospective organization submits before it is onboarded.
The model covers the record's validations (presence, uniqueness, minimum
length, email format, and the two custom checks against the Organization
and User tables), the four-valued `status` enum and its `closed` scope, the
`confirmed?` and `processed?` queries, the `approve!` and `reject!`
transitions with the mail each queues, and the identity token that names a
request in confirmation links.

Everything is pure: the database is a `Store` value holding the three
tables, the mail queue is an outbox sequence in a `World`, the clock is a
`now` parameter, the id the database would assign to a new row is a
`freshId` parameter, the email regular expression is a parameter
`wellFormedEmail: string -> bool`, and the token signer/verifier is a
`Codec` value.

Files and modules:

- `wrappers.dfy` (`Wrappers`): `Option` and `Result`.
- `status.dfy` (`AccountStatus`): the enum, its stored names, the names
  the `closed` scope selects.
- `account_request.dfy` (`Records`): the record, Organization and User
  rows, `confirmed?`, `processed?`, the `closed` scope, `find_by(id:)`.
- `validation.dfy` (`Validation`): the declared validations, run in
  declaration order, producing Rails' field-keyed errors collection.
- `transitions.dfy` (`Transitions`): `save`, `update!`, `create!`,
  `approve!`, `reject!`.
- `identity_token.dfy` (`IdentityTokens`): `identity_token` and
  `get_by_identity_token`.

Modelling decisions taken against the source:

- `organization_name` has no validator in app/models/account_request.rb,
  so validation accepts any value for it, including "".
- The default of the status column is not in the file. `NewRequest`, the
  record built from the sign-up form, starts in `requested`.
- After a failed `update!` the in-memory Ruby object keeps the values that
  were assigned to it, because `save!` raises only after the assignment.
  The stored row and the mail queue are unchanged. The model describes only
  the stored row and the outbox.

## Model

| member | source | states |
|---|---|---|
| AccountStatus.ParseStatus | app/models/account_request.rb:26 | assigning a status string gives a value exactly when the string is one of the four stored names, and that value's name is the string |
| AccountStatus.ExactlyFourStatuses | app/models/account_request.rb:26 | the enum has exactly four distinct values, every status is one of them, and each is read back from its stored name |
| AccountStatus.ClosedIffNotRequested | app/models/account_request.rb:28 | a status is among the names the `closed` scope filters on exactly when it is not `requested` |
| Records.Confirmed | app/models/account_request.rb:48-50 | `confirmed?` is false exactly for `requested` and `rejected`, and a confirmed request is selected by the `closed` scope |
| Records.Processed | app/models/account_request.rb:53-55 | `processed?` holds only for a saved record, and never while no Organization exists |
| Records.Closed | app/models/account_request.rb:28 | the `closed` scope keeps exactly the rows whose status is not `requested`, each of them with a closed status, and never adds rows |
| Records.ConfirmedAndProcessedIndependent | app/models/account_request.rb:48-55 | all four combinations of `confirmed?` (pending or approved) and `processed?` (an Organization points back at the request) occur |
| Records.FindById | app/models/account_request.rb:34 | `find_by(id:)` returns a stored row carrying that id, and returns nothing exactly when no row carries it |
| Records.FindStoredById | app/models/account_request.rb:34 | under unique ids, looking up a stored record's id returns that record |
| Validation.RunChecks | app/models/account_request.rb:16-22 | running validations in turn collects the error of each validation that fails and no other error, with no more errors than validations |
| Validation.AtMostOnePerCheck | app/models/account_request.rb:16-22 | each validation's error occurs in the collection at most as often as the validation occurs in the list |
| Validation.EachErrorAtMostOnce | app/models/account_request.rb:16-22 | since every validation is declared once, the errors collection holds each declared error at most once |
| Validation.Errors | app/models/account_request.rb:16-22 | for each declared validation, its error is in the collection exactly when that validation fails; every error comes from a declared validation |
| Validation.NameErrors | app/models/account_request.rb:16 | `:name` is reported blank exactly when the name is empty or whitespace only |
| Validation.EmailErrors | app/models/account_request.rb:17-22 | under `:email`: blank, taken, invalid, used by an Organization and used by a User are each reported exactly when that rule is broken |
| Validation.EmailBlankReported | app/models/account_request.rb:17 | `:email` is reported blank exactly when the email is empty or whitespace only |
| Validation.EmailTakenReported | app/models/account_request.rb:17 | `:email` is reported taken exactly when another stored row holds the same email |
| Validation.EmailInvalidReported | app/models/account_request.rb:19 | `:email` is reported invalid exactly when the email fails the format check |
| Validation.EmailUsedByOrganizationReported | app/models/account_request.rb:70-74 | the Organization clash is reported exactly when some Organization holds the email |
| Validation.EmailUsedByUserReported | app/models/account_request.rb:76-79 | the User clash is reported exactly when some User holds the email |
| Validation.RequestDetailsErrors | app/models/account_request.rb:18 | `:request_details` is reported blank exactly when blank, and too short exactly when under 50 characters, independently |
| Validation.Valid | app/models/account_request.rb:16-22 | a valid record has a non-empty name and email, at least 50 characters of details, and an email that no Organization, no User and no other stored request holds |
| Validation.ValidIffNoErrors | app/models/account_request.rb:16-22 | the errors collection is empty exactly when all the rules hold, so any one broken rule makes the record invalid |
| Validation.ClashesReportedSeparately | app/models/account_request.rb:70-79 | when both an Organization and a User hold the email, the two clashes appear as two separate errors under `:email` |
| Validation.UniquenessExcludesSelf | app/models/account_request.rb:17 | a stored record re-validated against rows whose only same-email row is its own is not reported as taken |
| Validation.UnsavedRecordClashesWithStoredEmail | app/models/account_request.rb:17 | a new record whose email is on any stored row is reported as taken and is invalid |
| Transitions.ReplaceById | app/models/account_request.rb:58 | writing a persisted record replaces the rows with its id by it, keeps every other row, and adds no row |
| Transitions.ReplaceByIdAt | app/models/account_request.rb:58 | position by position, writing a persisted record puts it exactly where the stored id matches and leaves every other row as it was |
| Transitions.Save | app/models/account_request.rb:58 | a persisted record is written in place; a new one is inserted under the assigned id; only the requests table changes |
| Transitions.Write | app/models/account_request.rb:58 | `update!` writes exactly when the changed record is valid; otherwise it fails with the record's full error list, which is never empty |
| Transitions.Create | app/models/account_request.rb:16-22 | creating inserts the given new record under the assigned id exactly when it is valid, queues no mail, and otherwise reports its errors |
| Transitions.CreateFromForm | app/models/account_request.rb:16-26 | a request built from the sign-up form is created exactly when valid, and is stored with the submitted attributes in state `requested`, neither confirmed nor rejected |
| Transitions.Approve | app/models/account_request.rb:57-60 | on success the record is `pending`, confirmed at `now`, otherwise unchanged, and written back (present in the new table whenever it was new or its row existed), with exactly one approval mail for its id queued; it succeeds exactly when the changed record is valid, and otherwise reports its errors |
| Transitions.Reject | app/models/account_request.rb:63-66 | on success the record is `rejected` with the given reason, otherwise unchanged, and written back (present in the new table whenever it was new or its row existed), with exactly one rejection mail carrying the saved record queued; it succeeds exactly when the changed record is valid, and otherwise reports its errors |
| Transitions.TransitionsIgnorePriorStatus | app/models/account_request.rb:57-66 | the outcome of `approve!` and of `reject!` does not depend on the status the record starts in |
| Transitions.OrganizationEmailBlocksTransitions | app/models/account_request.rb:70-74 | once an Organization holds the email, both transitions fail with the Organization error and nothing is written or queued |
| Transitions.ApprovedIsConfirmedAndClosed | app/models/account_request.rb:48-60 | an approved record is `confirmed?` and, once written, is selected by the `closed` scope |
| Transitions.ApprovedRequestCanBeRejected | app/models/account_request.rb:57-66 | a request just approved can be rejected at once, and it keeps its confirmation time |
| Transitions.DuplicateEmailRejectedOnCreate | app/models/account_request.rb:17 | after one request with an email is created, a second creation with the same email fails as taken |
| Transitions.ReplaceKeepsUnique | app/models/account_request.rb:58 | updating a row in place keeps ids and emails unique across the table when no row with another id has the record's email |
| Transitions.AppendKeepsUnique | app/models/account_request.rb:17 | inserting a row whose id and email no stored row has keeps ids and emails unique across the table |
| Transitions.WritePreservesUniqueness | app/models/account_request.rb:17 | a write that passes validation keeps the requests table free of duplicate ids and duplicate emails |
| Transitions.TransitionsPreserveUniqueness | app/models/account_request.rb:57-66 | a successful `approve!` or `reject!`, and a successful creation, each leave the requests table free of duplicate ids and duplicate emails |
| IdentityTokens.IdentityToken | app/models/account_request.rb:41-45 | issuing a token fails exactly when the record has no id; a codec that verifies its own identity tokens decodes the issued token to the record's id |
| IdentityTokens.GetByIdentityToken | app/models/account_request.rb:30-39 | the lookup never fails: it returns a stored row with the decoded id, or nothing exactly when the token does not verify, lacks the claim, or names an id that no row carries |
| IdentityTokens.TokenRoundTrip | app/models/account_request.rb:30-45 | with unique ids and a faithful codec, the token of a stored record leads back to that record |
| IdentityTokens.UnverifiedTokenFindsNothing | app/models/account_request.rb:35-38 | a token that does not verify finds no record, whatever is stored |
| IdentityTokens.WrittenRecordFoundByToken | app/models/account_request.rb:30-34 | after a record is written, its token finds exactly that record in the new tables |
| IdentityTokens.ApprovedRequestFoundByToken | app/models/account_request.rb:30-45 | after an approval is written, the approved record's token finds the approved record |

## Left out

- The token signature: `JWT.encode`/`JWT.decode` with HS256 and the
  application secret are a `Codec` parameter. `Faithful` is the only thing
  assumed about it: tokens the codec signs for an id-only payload verify
  back to that payload. The token lookup does not depend on how other
  payloads behave, for example ones carrying `exp` or `nbf`. Nothing is
  proved about forged or differently-signed tokens.
- Transitions.Save: writes the whole in-memory record over the stored row.
  Rails' `update!` sends only the columns changed since the object was
  loaded. The two agree unless the stored row changed after the object was
  loaded. The model keeps no load-time values, so it cannot tell such a
  stale object apart.
- The email regular expression (`URI::MailTo::EMAIL_REGEXP`): its pattern is
  a library constant, so it is the `wellFormedEmail` parameter.
- Claim values other than integers: a decoded payload is a map from claim
  names to integers. A string id that Rails would cast to an integer is not
  modelled.
- `nil` attributes: a `nil` name, email, request details or organization
  name is represented by "". Presence, length and format treat `nil` and ""
  the same. The uniqueness and Organization/User lookups on a `nil` email
  would query `IS NULL`; the model does not cover that. A `nil`
  `organization_name` passes every validator, but the column is declared
  `not null`, so Rails' INSERT or UPDATE fails and `create!`/`update!`
  raise. In the model the value "" is written and the write succeeds.
- The database itself: the tables are sequences in a `Store`. Id
  assignment is the `freshId` parameter. Transactions, races between
  concurrent inserts, database errors that the token lookup would also
  swallow, and the `dependent: :nullify` cascade on the organization link
  are not modelled. Destroyed records are not modelled either.
- Mail delivery: `deliver_later` becomes an event appended to the outbox.
  Delivery itself and its failures are not modelled.
- `Time.current` is the `now` parameter. `created_at`/`updated_at` are
  set by the framework and are not fields of the model.
- `reject!(nil)`: the reason is always a string.
- IdentityTokens.IdentityToken: `persisted?` is modelled as "has an id".
  Rails reads it as neither a new record nor destroyed. A new record built
  with an explicit id, such as `AccountRequest.new(id: 5, ...)`, is not
  persisted in Rails: `identity_token` raises on it, and `update!` tries
  to INSERT it, which fails on a duplicate key. The model cannot represent
  such a record. A model record with an id counts as persisted: it gets a
  token, and its transitions update the row with that id in place.
- A `nil` status: `status` is always one of the four values. The column
  and its null constraint are not in the file's schema comment. A row with
  a `nil` status would be neither `requested` nor selected by `closed`;
  the model has no such row.
- The in-memory object after a failed transition keeps the assigned status
  and timestamp in Rails. The model returns only the errors. See above.
- The enum's generated writers and scopes: `requested!`, `pending!`,
  `approved!` and `rejected!` are each `update!(status:)`, and the
  `requested`, `pending`, `approved` and `rejected` scopes are each a
  `where(status:)`. They are not separate members. A writer is `Write` of
  the record with only its status changed. A scope is a filter on the
  status like `Closed`.

=== FILE: account_request.dfy ===
/** The account request record, the two tables its validations consult,
    and the read-only queries on it (app/models/account_request.rb). */
module Records {
  import opened Wrappers
  import opened AccountStatus

  /** An instant, as returned by the application clock. */
  type Time = int

  /** One row of `account_requests`. `id` is absent until the record has
      been inserted; `confirmedAt` and `rejectionReason` are set by the two
      transitions. A `nil` string attribute is represented by "", which
      every validation treats the same way. */
  datatype AccountRequest = AccountRequest(
    id: Option<nat>,
    name: string,
    email: string,
    organizationName: string,
    organizationWebsite: Option<string>,
    requestDetails: string,
    status: Status,
    confirmedAt: Option<Time>,
    rejectionReason: Option<string>)

  /** An Organization row: its email, and the account request it was
      created from (the foreign key behind `has_one :organization`). */
  datatype Organization = Organization(id: nat, email: string, accountRequestId: Option<nat>)

  /** A User row, of which only the email matters here. */
  datatype User = User(id: nat, email: string)

  /** The persisted state the record's code reads. */
  datatype Store = Store(
    requests: seq<AccountRequest>,
    organizations: seq<Organization>,
    users: seq<User>)

  /** `persisted?`, read as "has an id". The model never gives a new record
      an id before it is inserted, and has no destroyed records, so the two
      readings agree on every record the model builds. */
  predicate Persisted(r: AccountRequest) {
    r.id.Some?
  }

  /** `confirmed?`: `pending? || approved?`. */
  predicate Confirmed(r: AccountRequest)
    ensures Confirmed(r) ==> IsClosed(r.status)
    ensures !Confirmed(r) <==> r.status == Requested || r.status == Rejected
  {
    ClosedIffNotRequested(r.status);
    r.status == Pending || r.status == Approved
  }

  /** `processed?`: some Organization points back at this request. An
      unsaved record has no id and therefore no organization. */
  predicate Processed(r: AccountRequest, store: Store)
    ensures Processed(r, store) ==> Persisted(r)
    ensures store.organizations == [] ==> !Processed(r, store)
  {
    r.id.Some? && exists o :: o in store.organizations && o.accountRequestId == r.id
  }

  /** `confirmed?` and `processed?` are independent: each of the four
      combinations of their answers is taken by some record. */
  lemma ConfirmedAndProcessedIndependent(confirmed: bool, processed: bool)
    ensures exists r, store :: Confirmed(r) == confirmed && Processed(r, store) == processed
  {
    var r := AccountRequest(Some(1), "", "", "", None, "",
                            if confirmed then Pending else Requested, None, None);
    var store := Store([], if processed then [Organization(1, "", Some(1))] else [], []);
    assert processed ==> store.organizations[0] in store.organizations;
    assert Confirmed(r) == confirmed && Processed(r, store) == processed;
  }

  /** The `closed` scope: the records whose stored status is one of
      "pending", "approved" or "rejected", in table order. */
  function Closed(rs: seq<AccountRequest>): (c: seq<AccountRequest>)
    ensures forall x :: x in c <==> x in rs && x.status != Requested
    ensures forall x :: x in c ==> IsClosed(x.status)
    ensures |c| <= |rs|
  {
    if rs == [] then []
    else
      ClosedIffNotRequested(rs[0].status);
      var tail := Closed(rs[1..]);
      assert forall x :: x in rs <==> x == rs[0] || x in rs[1..];
      if IsClosed(rs[0].status) then [rs[0]] + tail else tail
  }

  /** No two stored rows share an id: the primary-key constraint. */
  predicate IdsUnique(rs: seq<AccountRequest>) {
    forall i, j :: 0 <= i < |rs| && 0 <= j < |rs| && i != j && rs[i].id.Some? ==> rs[i].id != rs[j].id
  }

  /** No two stored rows share an email: what the uniqueness validation on
      `email` keeps true of the table. */
  predicate EmailsUnique(rs: seq<AccountRequest>) {
    forall i, j :: 0 <= i < |rs| && 0 <= j < |rs| && i != j ==> rs[i].email != rs[j].email
  }

  /** `find_by(id: id)`: a row with that id, or nothing. */
  function FindById(rs: seq<AccountRequest>, id: nat): (found: Option<AccountRequest>)
    ensures found.Some? ==> found.value in rs && found.value.id == Some(id)
    ensures found.None? <==> forall x :: x in rs ==> x.id != Some(id)
  {
    if rs == [] then None
    else if rs[0].id == Some(id) then Some(rs[0])
    else
      assert forall x :: x in rs <==> x == rs[0] || x in rs[1..];
      FindById(rs[1..], id)
  }

  /** Under the primary-key constraint the lookup finds exactly the stored
      row carrying the id. */
  lemma FindStoredById(rs: seq<AccountRequest>, r: AccountRequest)
    requires IdsUnique(rs)
    requires r in rs && Persisted(r)
    ensures FindById(rs, r.id.value) == Some(r)
  {
  }
}

=== FILE: identity_token.dfy ===
/** The signed identity token of an account request and the lookup that
    reads it back (app/models/account_request.rb, lines 30-45). The signing
    scheme and its secret are not modelled: a `Codec` stands for encoding
    and verifying with the application's key. */
module IdentityTokens {
  import opened Wrappers
  import opened Records
  import opened Validation
  import opened Transitions

  /** A token as handed out in confirmation links. */
  type Token = string

  /** The decoded payload: claim names to integer claim values. */
  type Claims = map<string, int>

  /** The one claim an identity token carries. */
  const AccountRequestIdClaim: string := "account_request_id"

  /** Signing a payload, and verifying a token back into its payload (absent
      when the token is malformed or its signature does not check). */
  datatype Codec = Codec(encode: Claims -> Token, decode: Token -> Option<Claims>)

  /** The payload `identity_token` signs: the id claim and nothing else. */
  function Payload(id: int): Claims {
    map[AccountRequestIdClaim := id]
  }

  /** A codec that verifies every identity token it signed back to the signed
      payload. Nothing is assumed about other payloads. */
  ghost predicate Faithful(codec: Codec) {
    forall id :: codec.decode(codec.encode(Payload(id))) == Some(Payload(id))
  }

  /** Why `identity_token` refuses to issue a token. */
  datatype TokenError = MustHaveAnId

  /** The id a token names, if it verifies and carries the claim. */
  function DecodedId(codec: Codec, token: Token): Option<int> {
    match codec.decode(token)
    case None => None
    case Some(claims) =>
      if AccountRequestIdClaim in claims then Some(claims[AccountRequestIdClaim]) else None
  }

  /** `identity_token`: fails on a record that has not been inserted;
      otherwise a token whose only claim is the record's id, so a faithful
      codec reads the id back from it. */
  function IdentityToken(r: AccountRequest, codec: Codec): (t: Result<Token, TokenError>)
    ensures t.Failure? <==> !Persisted(r)
    ensures t.Success? && Faithful(codec) ==> DecodedId(codec, t.value) == Some(r.id.value)
  {
    if !Persisted(r) then Failure(MustHaveAnId)
    else
      var claims := Payload(r.id.value as int);
      assert Faithful(codec) ==> codec.decode(codec.encode(claims)) == Some(claims);
      Success(codec.encode(claims))
  }

  /** `get_by_identity_token`: never fails; a stored record carrying the id
      the token names, or nothing when the token does not verify, lacks the
      claim, or names an id no row has. */
  function GetByIdentityToken(store: Store, codec: Codec, token: Token): (found: Option<AccountRequest>)
    ensures found.Some? ==>
      && found.value in store.requests
      && DecodedId(codec, token).Some?
      && DecodedId(codec, token).value >= 0
      && found.value.id == Some(DecodedId(codec, token).value as nat)
    ensures found.None? <==>
      || DecodedId(codec, token).None?
      || DecodedId(codec, token).value < 0
      || forall x :: x in store.requests ==> x.id != Some(DecodedId(codec, token).value as nat)
  {
    match DecodedId(codec, token)
    case None => None
    case Some(id) => if id < 0 then None else FindById(store.requests, id)
  }

  /** A token issued for a stored record leads back to that record, provided
      ids are unique and the codec verifies its own tokens. */
  lemma TokenRoundTrip(store: Store, codec: Codec, r: AccountRequest)
    requires Faithful(codec)
    requires IdsUnique(store.requests)
    requires r in store.requests && Persisted(r)
    ensures IdentityToken(r, codec).Success?
    ensures GetByIdentityToken(store, codec, IdentityToken(r, codec).value) == Some(r)
  {
  }

  /** A token that does not verify finds nothing, whatever is stored. */
  lemma UnverifiedTokenFindsNothing(store: Store, codec: Codec, token: Token)
    requires codec.decode(token).None?
    ensures GetByIdentityToken(store, codec, token).None?
  {
  }

  /** A record just written is what its token finds in the new tables: a
      write leaves no other row with the record's id. */
  lemma WrittenRecordFoundByToken(before: Store, after: Store, codec: Codec, rec: AccountRequest)
    requires Faithful(codec)
    requires WrittenTo(before, after, rec)
    requires rec in after.requests && Persisted(rec)
    ensures GetByIdentityToken(after, codec, IdentityToken(rec, codec).value) == Some(rec)
  {
  }

  /** After an approval is written, the record's token finds the approved
      record: the link in the approval mail resolves to it. */
  lemma ApprovedRequestFoundByToken(w: World, r: AccountRequest, now: Time, wellFormedEmail: string -> bool,
                                    freshId: nat, codec: Codec)
    requires Faithful(codec)
    requires !Persisted(r) ==> Unused(w.store, freshId)
    requires Valid(ApprovalChange(r, now), w.store, wellFormedEmail)
    requires !Persisted(r) || exists x :: x in w.store.requests && x.id == r.id
    ensures var a := Approve(w, r, now, wellFormedEmail, freshId).value;
            GetByIdentityToken(a.world.store, codec, IdentityToken(a.record, codec).value) == Some(a.record)
  {
    var a := Approve(w, r, now, wellFormedEmail, freshId).value;
    var u := ApprovalChange(r, now);
    assert Save(w.store, u, freshId).0 in Save(w.store, u, freshId).1.requests;
    WrittenRecordFoundByToken(w.store, a.world.store, codec, a.record);
  }
}

=== FILE: status.dfy ===
/** The `status` enum of an account request and the string names it is
    stored under (app/models/account_request.rb, lines 26 and 28). */
module AccountStatus {
  import opened Wrappers

  /** The four lifecycle states of an account request. */
  datatype Status = Requested | Pending | Approved | Rejected

  /** The enum's values in declaration order. */
  const AllStatuses: seq<Status> := [Requested, Pending, Approved, Rejected]

  /** The string each value is stored as: the enum maps every name to itself. */
  function StatusName(s: Status): string {
    match s
    case Requested => "requested"
    case Pending => "pending"
    case Approved => "approved"
    case Rejected => "rejected"
  }

  /** Assigning a string to `status`: one of the four names, or the error
      Rails raises for any other string. */
  function ParseStatus(n: string): (r: Option<Status>)
    ensures r.Some? ==> StatusName(r.value) == n
    ensures r.None? ==> forall s :: StatusName(s) != n
  {
    if n == "requested" then Some(Requested)
    else if n == "pending" then Some(Pending)
    else if n == "approved" then Some(Approved)
    else if n == "rejected" then Some(Rejected)
    else None
  }

  /** The status is always one of exactly four distinct values, each of
      which is read back from its stored name. */
  lemma ExactlyFourStatuses()
    ensures |AllStatuses| == 4
    ensures forall s: Status :: s in AllStatuses
    ensures forall i, j :: 0 <= i < j < |AllStatuses| ==> AllStatuses[i] != AllStatuses[j]
    ensures forall s: Status :: ParseStatus(StatusName(s)) == Some(s)
  {
    forall s: Status ensures s in AllStatuses && ParseStatus(StatusName(s)) == Some(s) {
      match s
      case Requested => assert AllStatuses[0] == s;
      case Pending => assert AllStatuses[1] == s;
      case Approved => assert AllStatuses[2] == s;
      case Rejected => assert AllStatuses[3] == s;
    }
  }

  /** The names the `closed` scope filters on. */
  const ClosedNames: seq<string> := ["pending", "approved", "rejected"]

  /** Whether a status is selected by the `closed` scope. */
  predicate IsClosed(s: Status) {
    StatusName(s) in ClosedNames
  }

  /** The `closed` scope excludes exactly the initial `requested` state. */
  lemma ClosedIffNotRequested(s: Status)
    ensures IsClosed(s) <==> s != Requested
  {
  }
}

=== FILE: transitions.dfy ===
/** Creating an account request and its two transitions, `approve!` and
    `reject!` (app/models/account_request.rb, lines 57-66). Each write goes
    through the full validation; the mail it sends is an event appended to
    an outbox. */
module Transitions {
  import opened Wrappers
  import opened AccountStatus
  import opened Records
  import opened Validation

  /** A message handed to the mailer for later delivery: the approval mail
      is addressed by id, the rejection mail carries the whole record. */
  datatype Event = ApprovalRequest(accountRequestId: nat) | Rejection(accountRequest: AccountRequest)

  /** The persisted tables together with the outbox of mail to deliver. */
  datatype World = World(store: Store, outbox: seq<Event>)

  /** A write that went through: the record as saved and the world after it. */
  datatype Applied = Applied(record: AccountRequest, world: World)

  /** The attributes a requester fills in, which no transition touches. */
  predicate SameAttributes(a: AccountRequest, b: AccountRequest) {
    && a.name == b.name
    && a.email == b.email
    && a.organizationName == b.organizationName
    && a.organizationWebsite == b.organizationWebsite
    && a.requestDetails == b.requestDetails
  }

  /** `after` is `before` with `rec` written to the requests table: the other
      tables are untouched, every other row is kept, and no row appears but
      `rec`. */
  predicate WrittenTo(before: Store, after: Store, rec: AccountRequest) {
    && after.organizations == before.organizations
    && after.users == before.users
    && (forall x :: x in after.requests ==> x == rec || (x in before.requests && x.id != rec.id))
    && (forall x :: x in before.requests && x.id != rec.id ==> x in after.requests)
  }

  /** `UPDATE ... WHERE id = r.id`: every row with the record's id becomes the
      record, every other row stays as it is. */
  function ReplaceById(rs: seq<AccountRequest>, r: AccountRequest): (rs': seq<AccountRequest>)
    requires Persisted(r)
    ensures |rs'| == |rs|
    ensures forall x :: x in rs' ==> x == r || (x in rs && x.id != r.id)
    ensures forall x :: x in rs && x.id != r.id ==> x in rs'
    ensures (exists x :: x in rs && x.id == r.id) ==> r in rs'
  {
    if rs == [] then []
    else
      var tail := ReplaceById(rs[1..], r);
      assert forall x :: x in rs <==> x == rs[0] || x in rs[1..];
      (if rs[0].id == r.id then [r] else [rs[0]]) + tail
  }

  /** Row by row, `ReplaceById` swaps in the record exactly where the id
      matches. */
  lemma {:induction false} ReplaceByIdAt(rs: seq<AccountRequest>, r: AccountRequest, k: nat)
    requires Persisted(r)
    requires k < |rs|
    ensures ReplaceById(rs, r)[k] == (if rs[k].id == r.id then r else rs[k])
  {
    if k > 0 {
      ReplaceByIdAt(rs[1..], r, k - 1);
    }
  }

  /** No stored row carries `id`: the database hands out each id once. */
  predicate Unused(store: Store, id: nat) {
    forall x :: x in store.requests ==> x.id != Some(id)
  }

  /** `save`: a persisted record is updated in place; a new one is inserted
      under the id the database assigns (`freshId`). */
  function Save(store: Store, r: AccountRequest, freshId: nat): (saved: (AccountRequest, Store))
    requires !Persisted(r) ==> Unused(store, freshId)
    ensures Persisted(saved.0)
    ensures Persisted(r) ==> saved.0 == r
    ensures !Persisted(r) ==> saved.0 == r.(id := Some(freshId))
    ensures WrittenTo(store, saved.1, saved.0)
    ensures (!Persisted(r) || exists x :: x in store.requests && x.id == r.id) ==> saved.0 in saved.1.requests
  {
    if Persisted(r) then
      (r, store.(requests := ReplaceById(store.requests, r)))
    else
      var inserted := r.(id := Some(freshId));
      (inserted, store.(requests := store.requests + [inserted]))
  }

  /** `update!`/`save!`: validate the changed record against the stored
      tables and write it only if no error was found. */
  function Write(store: Store, updated: AccountRequest, wellFormedEmail: string -> bool, freshId: nat): (res: Result<(AccountRequest, Store), seq<Error>>)
    requires !Persisted(updated) ==> Unused(store, freshId)
    ensures res.Success? <==> Valid(updated, store, wellFormedEmail)
    ensures res.Failure? ==> res.error == Errors(updated, store, wellFormedEmail) && res.error != []
    ensures res.Success? ==> res.value == Save(store, updated, freshId)
  {
    ValidIffNoErrors(updated, store, wellFormedEmail);
    var errs := Errors(updated, store, wellFormedEmail);
    if errs != [] then Failure(errs) else Success(Save(store, updated, freshId))
  }

  /** A new record as built from the sign-up form: no id, status
      `requested`, neither confirmed nor rejected. */
  function NewRequest(name: string, email: string, organizationName: string,
                      organizationWebsite: Option<string>, requestDetails: string): AccountRequest
  {
    AccountRequest(None, name, email, organizationName, organizationWebsite, requestDetails,
                   Requested, None, None)
  }

  /** `create!`: the new record is inserted, in state `requested`, exactly
      when it passes validation; nothing is mailed. */
  function Create(w: World, r: AccountRequest, wellFormedEmail: string -> bool, freshId: nat): (res: Result<Applied, seq<Error>>)
    requires !Persisted(r) && Unused(w.store, freshId)
    ensures res.Success? <==> Valid(r, w.store, wellFormedEmail)
    ensures res.Failure? ==> res.error == Errors(r, w.store, wellFormedEmail) && res.error != []
    ensures res.Success? ==>
      && res.value.record == r.(id := Some(freshId))
      && res.value.record in res.value.world.store.requests
      && WrittenTo(w.store, res.value.world.store, res.value.record)
      && res.value.world.outbox == w.outbox
  {
    match Write(w.store, r, wellFormedEmail, freshId)
    case Failure(errs) => Failure(errs)
    case Success((saved, store')) => Success(Applied(saved, World(store', w.outbox)))
  }

  /** A request built from the sign-up form is created exactly when valid,
      and is stored in state `requested`, neither confirmed nor rejected. */
  lemma CreateFromForm(w: World, name: string, email: string, organizationName: string,
                       organizationWebsite: Option<string>, requestDetails: string,
                       wellFormedEmail: string -> bool, freshId: nat)
    requires Unused(w.store, freshId)
    ensures var r := NewRequest(name, email, organizationName, organizationWebsite, requestDetails);
            && (Create(w, r, wellFormedEmail, freshId).Success? <==> Valid(r, w.store, wellFormedEmail))
            && (Create(w, r, wellFormedEmail, freshId).Success? ==>
                  var rec := Create(w, r, wellFormedEmail, freshId).value.record;
                  && rec in Create(w, r, wellFormedEmail, freshId).value.world.store.requests
                  && rec.id == Some(freshId)
                  && rec.status == Requested && !Confirmed(rec)
                  && rec.confirmedAt.None? && rec.rejectionReason.None?
                  && rec.name == name && rec.email == email && rec.organizationName == organizationName
                  && rec.organizationWebsite == organizationWebsite && rec.requestDetails == requestDetails)
  {
  }

  /** The change `approve!` asks for. */
  function ApprovalChange(r: AccountRequest, now: Time): AccountRequest {
    r.(confirmedAt := Some(now), status := Pending)
  }

  /** `approve!`: on success the record is `pending` and confirmed at `now`,
      nothing else about it changes, it is written back, and exactly one
      approval mail for its id is queued. On failure the errors are those of
      the changed record and nothing is written or queued. */
  function Approve(w: World, r: AccountRequest, now: Time, wellFormedEmail: string -> bool, freshId: nat): (res: Result<Applied, seq<Error>>)
    requires !Persisted(r) ==> Unused(w.store, freshId)
    ensures res.Success? <==> Valid(ApprovalChange(r, now), w.store, wellFormedEmail)
    ensures res.Failure? ==> res.error == Errors(ApprovalChange(r, now), w.store, wellFormedEmail) && res.error != []
    ensures res.Success? ==>
      && res.value.record.status == Pending
      && res.value.record.confirmedAt == Some(now)
      && SameAttributes(res.value.record, r)
      && res.value.record.rejectionReason == r.rejectionReason
      && (Persisted(r) ==> res.value.record.id == r.id)
      && Persisted(res.value.record)
      && WrittenTo(w.store, res.value.world.store, res.value.record)
      && res.value.world.outbox == w.outbox + [ApprovalRequest(res.value.record.id.value)]
      && ((!Persisted(r) || exists x :: x in w.store.requests && x.id == r.id)
          ==> res.value.record in res.value.world.store.requests)
  {
    match Write(w.store, ApprovalChange(r, now), wellFormedEmail, freshId)
    case Failure(errs) => Failure(errs)
    case Success((saved, store')) =>
      Success(Applied(saved, World(store', w.outbox + [ApprovalRequest(saved.id.value)])))
  }

  /** The change `reject!(reason)` asks for. */
  function RejectionChange(r: AccountRequest, reason: string): AccountRequest {
    r.(status := Rejected, rejectionReason := Some(reason))
  }

  /** `reject!(reason)`: on success the record is `rejected` with the given
      reason, nothing else about it changes, it is written back, and exactly
      one rejection mail carrying the saved record is queued. On failure the
      errors are those of the changed record and nothing is written or
      queued. */
  function Reject(w: World, r: AccountRequest, reason: string, wellFormedEmail: string -> bool, freshId: nat): (res: Result<Applied, seq<Error>>)
    requires !Persisted(r) ==> Unused(w.store, freshId)
    ensures res.Success? <==> Valid(RejectionChange(r, reason), w.store, wellFormedEmail)
    ensures res.Failure? ==> res.error == Errors(RejectionChange(r, reason), w.store, wellFormedEmail) && res.error != []
    ensures res.Success? ==>
      && res.value.record.status == Rejected
      && res.value.record.rejectionReason == Some(reason)
      && SameAttributes(res.value.record, r)
      && res.value.record.confirmedAt == r.confirmedAt
      && (Persisted(r) ==> res.value.record.id == r.id)
      && Persisted(res.value.record)
      && WrittenTo(w.store, res.value.world.store, res.value.record)
      && res.value.world.outbox == w.outbox + [Rejection(res.value.record)]
      && ((!Persisted(r) || exists x :: x in w.store.requests && x.id == r.id)
          ==> res.value.record in res.value.world.store.requests)
  {
    match Write(w.store, RejectionChange(r, reason), wellFormedEmail, freshId)
    case Failure(errs) => Failure(errs)
    case Success((saved, store')) =>
      Success(Applied(saved, World(store', w.outbox + [Rejection(saved)])))
  }

  /** Neither transition looks at the status it starts from. */
  lemma TransitionsIgnorePriorStatus(w: World, r: AccountRequest, s: Status, now: Time, reason: string,
                                     wellFormedEmail: string -> bool, freshId: nat)
    requires !Persisted(r) ==> Unused(w.store, freshId)
    ensures Approve(w, r.(status := s), now, wellFormedEmail, freshId) == Approve(w, r, now, wellFormedEmail, freshId)
    ensures Reject(w, r.(status := s), reason, wellFormedEmail, freshId) == Reject(w, r, reason, wellFormedEmail, freshId)
  {
  }

  /** Once an Organization holds the email, approving and rejecting both
      fail with that error, and nothing is written or mailed. */
  lemma OrganizationEmailBlocksTransitions(w: World, r: AccountRequest, now: Time, reason: string,
                                           wellFormedEmail: string -> bool, freshId: nat)
    requires !Persisted(r) ==> Unused(w.store, freshId)
    requires OrganizationHasEmail(w.store, r.email)
    ensures Approve(w, r, now, wellFormedEmail, freshId).Failure?
    ensures Error(EmailField, UsedByOrganization) in Approve(w, r, now, wellFormedEmail, freshId).error
    ensures Reject(w, r, reason, wellFormedEmail, freshId).Failure?
    ensures Error(EmailField, UsedByOrganization) in Reject(w, r, reason, wellFormedEmail, freshId).error
  {
    EmailErrors(ApprovalChange(r, now), w.store, wellFormedEmail);
    EmailErrors(RejectionChange(r, reason), w.store, wellFormedEmail);
  }

  /** An approved request is confirmed and, once written, selected by the
      `closed` scope. */
  lemma ApprovedIsConfirmedAndClosed(w: World, r: AccountRequest, now: Time, wellFormedEmail: string -> bool, freshId: nat)
    requires !Persisted(r) ==> Unused(w.store, freshId)
    requires Valid(ApprovalChange(r, now), w.store, wellFormedEmail)
    requires !Persisted(r) || exists x :: x in w.store.requests && x.id == r.id
    ensures Confirmed(Approve(w, r, now, wellFormedEmail, freshId).value.record)
    ensures Approve(w, r, now, wellFormedEmail, freshId).value.record
            in Closed(Approve(w, r, now, wellFormedEmail, freshId).value.world.store.requests)
  {
  }

  /** Nothing guards the lifecycle: a request just approved can be rejected
      straight away, and keeps its confirmation time. */
  lemma ApprovedRequestCanBeRejected(w: World, r: AccountRequest, now: Time, reason: string,
                                     wellFormedEmail: string -> bool, freshId: nat, nextId: nat)
    requires !Persisted(r) ==> Unused(w.store, freshId)
    requires Valid(ApprovalChange(r, now), w.store, wellFormedEmail)
    ensures var a := Approve(w, r, now, wellFormedEmail, freshId).value;
            && Reject(a.world, a.record, reason, wellFormedEmail, nextId).Success?
            && Reject(a.world, a.record, reason, wellFormedEmail, nextId).value.record.confirmedAt == Some(now)
  {
  }

  /** Two sign-ups with the same email: once the first is stored, the second
      fails the uniqueness validation. */
  lemma DuplicateEmailRejectedOnCreate(w: World, first: AccountRequest, second: AccountRequest,
                                       wellFormedEmail: string -> bool, freshId: nat, nextId: nat)
    requires !Persisted(first) && !Persisted(second)
    requires Unused(w.store, freshId) && Unused(w.store, nextId) && freshId != nextId
    requires second.email == first.email
    requires Valid(first, w.store, wellFormedEmail)
    ensures var a := Create(w, first, wellFormedEmail, freshId).value;
            && Create(a.world, second, wellFormedEmail, nextId).Failure?
            && Error(EmailField, Taken) in Create(a.world, second, wellFormedEmail, nextId).error
  {
    var a := Create(w, first, wellFormedEmail, freshId).value;
    assert Unused(a.world.store, nextId);
    UnsavedRecordClashesWithStoredEmail(second, a.record, a.world.store, wellFormedEmail);
  }

  /** A write that goes through keeps the requests table free of duplicate
      ids and duplicate emails: an update replaces the one row with its id,
      an insert takes an id no row has, and in both cases the uniqueness
      validation has ruled out every other row with the same email. */
  lemma WritePreservesUniqueness(store: Store, u: AccountRequest, wellFormedEmail: string -> bool, freshId: nat)
    requires !Persisted(u) ==> Unused(store, freshId)
    requires IdsUnique(store.requests) && EmailsUnique(store.requests)
    requires Write(store, u, wellFormedEmail, freshId).Success?
    ensures IdsUnique(Write(store, u, wellFormedEmail, freshId).value.1.requests)
    ensures EmailsUnique(Write(store, u, wellFormedEmail, freshId).value.1.requests)
  {
    assert Valid(u, store, wellFormedEmail);
    if Persisted(u) {
      ReplaceKeepsUnique(store.requests, u);
    } else {
      AppendKeepsUnique(store.requests, u.(id := Some(freshId)));
    }
  }

  /** Replacing the row with a record's id keeps ids and emails unique when
      no other row has the record's email. */
  lemma ReplaceKeepsUnique(rs: seq<AccountRequest>, u: AccountRequest)
    requires Persisted(u)
    requires IdsUnique(rs) && EmailsUnique(rs)
    requires forall x :: x in rs && x.email == u.email ==> x.id == u.id
    ensures IdsUnique(ReplaceById(rs, u)) && EmailsUnique(ReplaceById(rs, u))
  {
    var rs' := ReplaceById(rs, u);
    forall i, j | 0 <= i < |rs'| && 0 <= j < |rs'| && i != j
      ensures rs'[i].email != rs'[j].email
      ensures rs'[i].id.Some? ==> rs'[i].id != rs'[j].id
    {
      ReplaceByIdAt(rs, u, i);
      ReplaceByIdAt(rs, u, j);
      if rs[i].id == u.id && rs[j].id == u.id {
        assert false;
      } else if rs[i].id == u.id {
        assert rs[j] in rs;
      } else if rs[j].id == u.id {
        assert rs[i] in rs;
      }
    }
  }

  /** Appending a row keeps ids and emails unique when its id and its email
      are new to the table. */
  lemma AppendKeepsUnique(rs: seq<AccountRequest>, u: AccountRequest)
    requires IdsUnique(rs) && EmailsUnique(rs)
    requires forall x :: x in rs ==> x.id != u.id && x.email != u.email
    ensures IdsUnique(rs + [u]) && EmailsUnique(rs + [u])
  {
    var rs' := rs + [u];
    forall i, j | 0 <= i < |rs'| && 0 <= j < |rs'| && i != j
      ensures rs'[i].email != rs'[j].email
      ensures rs'[i].id.Some? ==> rs'[i].id != rs'[j].id
    {
      if i == |rs| {
        assert rs[j] in rs;
      } else if j == |rs| {
        assert rs[i] in rs;
      }
    }
  }

  /** Creating, approving and rejecting all keep the requests table free of
      duplicate ids and duplicate emails. */
  lemma TransitionsPreserveUniqueness(w: World, r: AccountRequest, now: Time, reason: string,
                                      wellFormedEmail: string -> bool, freshId: nat)
    requires !Persisted(r) ==> Unused(w.store, freshId)
    requires IdsUnique(w.store.requests) && EmailsUnique(w.store.requests)
    ensures !Persisted(r) && Create(w, r, wellFormedEmail, freshId).Success? ==>
              var rs := Create(w, r, wellFormedEmail, freshId).value.world.store.requests;
              IdsUnique(rs) && EmailsUnique(rs)
    ensures Approve(w, r, now, wellFormedEmail, freshId).Success? ==>
              var rs := Approve(w, r, now, wellFormedEmail, freshId).value.world.store.requests;
              IdsUnique(rs) && EmailsUnique(rs)
    ensures Reject(w, r, reason, wellFormedEmail, freshId).Success? ==>
              var rs := Reject(w, r, reason, wellFormedEmail, freshId).value.world.store.requests;
              IdsUnique(rs) && EmailsUnique(rs)
  {
    if !Persisted(r) && Create(w, r, wellFormedEmail, freshId).Success? {
      WritePreservesUniqueness(w.store, r, wellFormedEmail, freshId);
    }
    if Approve(w, r, now, wellFormedEmail, freshId).Success? {
      WritePreservesUniqueness(w.store, ApprovalChange(r, now), wellFormedEmail, freshId);
    }
    if Reject(w, r, reason, wellFormedEmail, freshId).Success? {
      WritePreservesUniqueness(w.store, RejectionChange(r, reason), wellFormedEmail, freshId);
    }
  }
}

=== FILE: validation.dfy ===
/** The validations of an account request (app/models/account_request.rb,
    lines 16-22 and 70-79), run in the order they are declared and
    collecting field-keyed errors as Rails' `errors` does. */
module Validation {
  import opened Wrappers
  import opened Records

  /** The attributes the validations report errors under. */
  datatype Attribute = NameField | EmailField | RequestDetailsField

  /** The error kinds: Rails' `:blank`, `:taken`, `:too_short` and
      `:invalid`, and the two custom email messages. */
  datatype Message = Blank | Taken | TooShort(minimum: nat) | Invalid | UsedByOrganization | UsedByUser

  /** One entry of the errors collection. */
  datatype Error = Error(attribute: Attribute, message: Message)

  /** One declared validation. */
  datatype Check =
    | Presence(attribute: Attribute)
    | Uniqueness(attribute: Attribute)
    | MinimumLength(attribute: Attribute, minimum: nat)
    | Format(attribute: Attribute)
    | NotUsedByOrganization
    | NotUsedByUser

  /** The minimum number of characters of `request_details`. */
  const MinimumDetailsLength: nat := 50

  /** The validations in declaration order: `presence` and `uniqueness` on
      email run in the order they are written, and the custom methods last. */
  const Declared: seq<Check> := [
    Presence(NameField),
    Presence(EmailField),
    Uniqueness(EmailField),
    Presence(RequestDetailsField),
    MinimumLength(RequestDetailsField, MinimumDetailsLength),
    Format(EmailField),
    NotUsedByOrganization,
    NotUsedByUser
  ]

  /** The attribute's value on the record. */
  function Value(r: AccountRequest, a: Attribute): string {
    match a
    case NameField => r.name
    case EmailField => r.email
    case RequestDetailsField => r.requestDetails
  }

  /** A character of Unicode's White_Space class, which Ruby's
      `[[:space:]]` matches. */
  predicate IsSpace(c: char) {
    || c == ' ' || c == '\t' || c == '\n' || c == '\r' || c == '\U{0B}' || c == '\U{0C}'
    || c == '\U{85}' || c == '\U{A0}' || c == '\U{1680}'
    || ('\U{2000}' <= c <= '\U{200A}')
    || c == '\U{2028}' || c == '\U{2029}' || c == '\U{202F}' || c == '\U{205F}' || c == '\U{3000}'
  }

  /** `blank?` on a string: empty or whitespace only. */
  predicate IsBlank(s: string) {
    forall i :: 0 <= i < |s| ==> IsSpace(s[i])
  }

  /** The uniqueness query: another stored row has the same value. A
      persisted record is excluded from its own query by id. */
  predicate IsTaken(r: AccountRequest, a: Attribute, requests: seq<AccountRequest>) {
    exists x :: x in requests && (r.id.None? || x.id != r.id) && Value(x, a) == Value(r, a)
  }

  /** `Organization.find_by(email: email)` finds a row. */
  predicate OrganizationHasEmail(store: Store, email: string) {
    exists o :: o in store.organizations && o.email == email
  }

  /** `User.find_by(email: email)` finds a row. */
  predicate UserHasEmail(store: Store, email: string) {
    exists u :: u in store.users && u.email == email
  }

  /** The error a validation reports when it fails. */
  function ErrorOf(c: Check): Error {
    match c
    case Presence(a) => Error(a, Blank)
    case Uniqueness(a) => Error(a, Taken)
    case MinimumLength(a, n) => Error(a, TooShort(n))
    case Format(a) => Error(a, Invalid)
    case NotUsedByOrganization => Error(EmailField, UsedByOrganization)
    case NotUsedByUser => Error(EmailField, UsedByUser)
  }

  /** Whether a validation fails on the record. `wellFormedEmail` stands for
      the email regular expression. */
  predicate Fails(c: Check, r: AccountRequest, store: Store, wellFormedEmail: string -> bool) {
    match c
    case Presence(a) => IsBlank(Value(r, a))
    case Uniqueness(a) => IsTaken(r, a, store.requests)
    case MinimumLength(a, n) => |Value(r, a)| < n
    case Format(a) => !wellFormedEmail(Value(r, a))
    case NotUsedByOrganization => OrganizationHasEmail(store, r.email)
    case NotUsedByUser => UserHasEmail(store, r.email)
  }

  /** The errors one validation adds to the collection. */
  function RunCheck(c: Check, r: AccountRequest, store: Store, wellFormedEmail: string -> bool): seq<Error> {
    if Fails(c, r, store, wellFormedEmail) then [ErrorOf(c)] else []
  }

  /** Running validations one after another: the collected errors are
      exactly those of the validations that fail, and there are no more of
      them than validations. */
  function RunChecks(cs: seq<Check>, r: AccountRequest, store: Store, wellFormedEmail: string -> bool): (errs: seq<Error>)
    ensures forall c :: c in cs && Fails(c, r, store, wellFormedEmail) ==> ErrorOf(c) in errs
    ensures forall e :: e in errs ==> exists c :: c in cs && Fails(c, r, store, wellFormedEmail) && e == ErrorOf(c)
    ensures |errs| <= |cs|
  {
    if cs == [] then []
    else
      var tail := RunChecks(cs[1..], r, store, wellFormedEmail);
      assert forall c :: c in cs <==> c == cs[0] || c in cs[1..];
      RunCheck(cs[0], r, store, wellFormedEmail) + tail
  }

  /** Each validation adds its error at most as often as it occurs in the
      list: a validation declared once reports at most one error. */
  lemma {:induction false} AtMostOnePerCheck(cs: seq<Check>, r: AccountRequest, store: Store, wellFormedEmail: string -> bool)
    ensures forall c :: c in cs ==>
              multiset(RunChecks(cs, r, store, wellFormedEmail))[ErrorOf(c)] <= multiset(cs)[c]
  {
    if cs != [] {
      AtMostOnePerCheck(cs[1..], r, store, wellFormedEmail);
      forall c | c in cs ensures multiset(RunChecks(cs, r, store, wellFormedEmail))[ErrorOf(c)] <= multiset(cs)[c] {
        ConsBound(cs, r, store, wellFormedEmail, c);
      }
    }
  }

  /** One step of `AtMostOnePerCheck`: if the rest of the list respects the
      bound, so does the whole list, its first validation contributing at
      most its own error. */
  lemma ConsBound(cs: seq<Check>, r: AccountRequest, store: Store, wellFormedEmail: string -> bool, c: Check)
    requires cs != []
    requires c in cs[1..] ==>
               multiset(RunChecks(cs[1..], r, store, wellFormedEmail))[ErrorOf(c)] <= multiset(cs[1..])[c]
    ensures multiset(RunChecks(cs, r, store, wellFormedEmail))[ErrorOf(c)] <= multiset(cs)[c]
  {
    var head := RunCheck(cs[0], r, store, wellFormedEmail);
    var tail := RunChecks(cs[1..], r, store, wellFormedEmail);
    var e := ErrorOf(c);
    assert RunChecks(cs, r, store, wellFormedEmail) == head + tail;
    CountCons(cs, c);
    CountConcat(head, tail, e);
    assert multiset(head)[e] <= (if cs[0] == c then 1 else 0) by {
      ErrorOfInjective(c, cs[0]);
    }
    assert multiset(tail)[e] <= multiset(cs[1..])[c] by {
      if c !in cs[1..] {
        forall c' | c' in cs[1..] ensures ErrorOf(c') != e {
          ErrorOfInjective(c, c');
        }
        assert e !in tail;
      }
    }
  }

  /** How often `x` occurs in a non-empty sequence: once more than in its
      tail when it is the head. */
  lemma CountCons<T>(s: seq<T>, x: T)
    requires s != []
    ensures multiset(s)[x] == (if s[0] == x then 1 else 0) + multiset(s[1..])[x]
  {
    assert s == [s[0]] + s[1..];
  }

  /** Occurrences in a concatenation add up. */
  lemma CountConcat<T>(a: seq<T>, b: seq<T>, x: T)
    ensures multiset(a + b)[x] == multiset(a)[x] + multiset(b)[x]
  {
  }

  /** Distinct validations report distinct errors. */
  lemma ErrorOfInjective(c: Check, d: Check)
    ensures ErrorOf(c) == ErrorOf(d) ==> c == d
  {
  }

  /** The errors collection after `valid?`: a declared validation's error is
      present exactly when that validation fails, and no other error ever
      appears. */
  function Errors(r: AccountRequest, store: Store, wellFormedEmail: string -> bool): (errs: seq<Error>)
    ensures forall c :: c in Declared ==> (ErrorOf(c) in errs <==> Fails(c, r, store, wellFormedEmail))
    ensures forall e :: e in errs ==> exists c :: c in Declared && e == ErrorOf(c)
    ensures |errs| <= |Declared|
  {
    var errs := RunChecks(Declared, r, store, wellFormedEmail);
    assert forall c, d :: ErrorOf(c) == ErrorOf(d) ==> c == d by {
      forall c, d ensures ErrorOf(c) == ErrorOf(d) ==> c == d {
        ErrorOfInjective(c, d);
      }
    }
    errs
  }

  /** The errors under `:name`: blank is reported exactly when the name is
      blank. */
  lemma NameErrors(r: AccountRequest, store: Store, wellFormedEmail: string -> bool)
    ensures Error(NameField, Blank) in Errors(r, store, wellFormedEmail) <==> IsBlank(r.name)
  {
  }

  /** The errors under `:email`: each is reported exactly when its rule is
      broken, the Organization and User clashes separately. */
  lemma EmailErrors(r: AccountRequest, store: Store, wellFormedEmail: string -> bool)
    ensures Error(EmailField, Blank) in Errors(r, store, wellFormedEmail) <==> IsBlank(r.email)
    ensures Error(EmailField, Taken) in Errors(r, store, wellFormedEmail) <==> IsTaken(r, EmailField, store.requests)
    ensures Error(EmailField, Invalid) in Errors(r, store, wellFormedEmail) <==> !wellFormedEmail(r.email)
    ensures Error(EmailField, UsedByOrganization) in Errors(r, store, wellFormedEmail) <==> OrganizationHasEmail(store, r.email)
    ensures Error(EmailField, UsedByUser) in Errors(r, store, wellFormedEmail) <==> UserHasEmail(store, r.email)
  {
    EmailBlankReported(r, store, wellFormedEmail);
    EmailTakenReported(r, store, wellFormedEmail);
    EmailInvalidReported(r, store, wellFormedEmail);
    EmailUsedByOrganizationReported(r, store, wellFormedEmail);
    EmailUsedByUserReported(r, store, wellFormedEmail);
  }

  /** `:email` blank is reported exactly when the email is blank. */
  lemma EmailBlankReported(r: AccountRequest, store: Store, wellFormedEmail: string -> bool)
    ensures Error(EmailField, Blank) in Errors(r, store, wellFormedEmail) <==> IsBlank(r.email)
  {
    assert ErrorOf(Presence(EmailField)) == Error(EmailField, Blank);
    assert Fails(Presence(EmailField), r, store, wellFormedEmail) == IsBlank(r.email);
    assert Declared[1] == Presence(EmailField);
    Reported(Declared[1], r, store, wellFormedEmail);
  }

  /** `:email` taken is reported exactly when another row holds the email. */
  lemma EmailTakenReported(r: AccountRequest, store: Store, wellFormedEmail: string -> bool)
    ensures Error(EmailField, Taken) in Errors(r, store, wellFormedEmail) <==> IsTaken(r, EmailField, store.requests)
  {
    assert ErrorOf(Uniqueness(EmailField)) == Error(EmailField, Taken);
    assert Fails(Uniqueness(EmailField), r, store, wellFormedEmail) == IsTaken(r, EmailField, store.requests);
    assert Declared[2] == Uniqueness(EmailField);
    Reported(Declared[2], r, store, wellFormedEmail);
  }

  /** `:email` invalid is reported exactly when the format check fails. */
  lemma EmailInvalidReported(r: AccountRequest, store: Store, wellFormedEmail: string -> bool)
    ensures Error(EmailField, Invalid) in Errors(r, store, wellFormedEmail) <==> !wellFormedEmail(r.email)
  {
    assert ErrorOf(Format(EmailField)) == Error(EmailField, Invalid);
    assert Fails(Format(EmailField), r, store, wellFormedEmail) == !wellFormedEmail(r.email);
    assert Declared[5] == Format(EmailField);
    Reported(Declared[5], r, store, wellFormedEmail);
  }

  /** The Organization clash is reported exactly when an Organization holds
      the email. */
  lemma EmailUsedByOrganizationReported(r: AccountRequest, store: Store, wellFormedEmail: string -> bool)
    ensures Error(EmailField, UsedByOrganization) in Errors(r, store, wellFormedEmail) <==> OrganizationHasEmail(store, r.email)
  {
    assert ErrorOf(NotUsedByOrganization) == Error(EmailField, UsedByOrganization);
    assert Fails(NotUsedByOrganization, r, store, wellFormedEmail) == OrganizationHasEmail(store, r.email);
    assert Declared[6] == NotUsedByOrganization;
    Reported(Declared[6], r, store, wellFormedEmail);
  }

  /** The User clash is reported exactly when a User holds the email. */
  lemma EmailUsedByUserReported(r: AccountRequest, store: Store, wellFormedEmail: string -> bool)
    ensures Error(EmailField, UsedByUser) in Errors(r, store, wellFormedEmail) <==> UserHasEmail(store, r.email)
  {
    assert ErrorOf(NotUsedByUser) == Error(EmailField, UsedByUser);
    assert Fails(NotUsedByUser, r, store, wellFormedEmail) == UserHasEmail(store, r.email);
    assert Declared[7] == NotUsedByUser;
    Reported(Declared[7], r, store, wellFormedEmail);
  }

  /** The errors under `:request_details`: blank and too short are reported
      independently, each exactly when its rule is broken. */
  lemma RequestDetailsErrors(r: AccountRequest, store: Store, wellFormedEmail: string -> bool)
    ensures Error(RequestDetailsField, Blank) in Errors(r, store, wellFormedEmail) <==> IsBlank(r.requestDetails)
    ensures Error(RequestDetailsField, TooShort(50)) in Errors(r, store, wellFormedEmail) <==> |r.requestDetails| < 50
  {
    var d := Declared;
    assert d[3] == Presence(RequestDetailsField) && d[4] == MinimumLength(RequestDetailsField, 50);
    Reported(d[3], r, store, wellFormedEmail);
    Reported(d[4], r, store, wellFormedEmail);
  }

  /** Every declared validation is declared once, so the errors collection
      holds each error at most once. */
  lemma EachErrorAtMostOnce(r: AccountRequest, store: Store, wellFormedEmail: string -> bool)
    ensures forall c :: c in Declared ==> multiset(Errors(r, store, wellFormedEmail))[ErrorOf(c)] <= 1
  {
    AtMostOnePerCheck(Declared, r, store, wellFormedEmail);
    assert forall i, j :: 0 <= i < j < |Declared| ==> Declared[i] != Declared[j];
    OccursAtMostOnce(Declared);
  }

  /** A list without repeated entries holds each value at most once. */
  lemma {:induction false} OccursAtMostOnce<T>(xs: seq<T>)
    requires forall i, j :: 0 <= i < j < |xs| ==> xs[i] != xs[j]
    ensures forall x :: multiset(xs)[x] <= 1
  {
    if xs != [] {
      assert xs == [xs[0]] + xs[1..];
      assert forall i, j :: 0 <= i < j < |xs[1..]| ==> xs[1..][i] != xs[1..][j] by {
        forall i, j | 0 <= i < j < |xs[1..]| ensures xs[1..][i] != xs[1..][j] {
          assert xs[1..][i] == xs[i + 1] && xs[1..][j] == xs[j + 1];
        }
      }
      OccursAtMostOnce(xs[1..]);
      assert xs[0] !in xs[1..] by {
        forall k | 0 <= k < |xs[1..]| ensures xs[1..][k] != xs[0] {
          assert xs[1..][k] == xs[k + 1];
        }
      }
      forall x ensures multiset(xs)[x] <= 1 {
        assert multiset(xs)[x] == multiset([xs[0]])[x] + multiset(xs[1..])[x];
      }
    }
  }

  /** One declared validation's error is reported exactly when it fails. */
  lemma Reported(c: Check, r: AccountRequest, store: Store, wellFormedEmail: string -> bool)
    requires c in Declared
    ensures ErrorOf(c) in Errors(r, store, wellFormedEmail) <==> Fails(c, r, store, wellFormedEmail)
  {
  }

  /** The rules of the record stated directly: name present; email present,
      unique, well formed and unused by any Organization or User; details
      present and at least 50 characters. */
  predicate Valid(r: AccountRequest, store: Store, wellFormedEmail: string -> bool)
    ensures Valid(r, store, wellFormedEmail) ==>
      && (forall o :: o in store.organizations ==> o.email != r.email)
      && (forall u :: u in store.users ==> u.email != r.email)
      && (forall x :: x in store.requests && x.email == r.email ==> r.id.Some? && x.id == r.id)
      && 0 < |r.name| && 0 < |r.email| && MinimumDetailsLength <= |r.requestDetails|
  {
    && !IsBlank(r.name)
    && !IsBlank(r.email)
    && !IsTaken(r, EmailField, store.requests)
    && wellFormedEmail(r.email)
    && !IsBlank(r.requestDetails)
    && |r.requestDetails| >= MinimumDetailsLength
    && !OrganizationHasEmail(store, r.email)
    && !UserHasEmail(store, r.email)
  }

  /** A write goes through exactly when the rules hold: any one failing rule
      leaves an error behind. */
  lemma ValidIffNoErrors(r: AccountRequest, store: Store, wellFormedEmail: string -> bool)
    ensures Valid(r, store, wellFormedEmail) <==> Errors(r, store, wellFormedEmail) == []
  {
    var errs := Errors(r, store, wellFormedEmail);
    NameErrors(r, store, wellFormedEmail);
    EmailErrors(r, store, wellFormedEmail);
    RequestDetailsErrors(r, store, wellFormedEmail);
    if errs != [] {
      assert errs[0] in errs;
      var c :| c in Declared && errs[0] == ErrorOf(c);
      assert Fails(c, r, store, wellFormedEmail);
    }
  }

  /** An Organization clash and a User clash are reported as two separate
      errors under `:email`, whatever else is wrong with the record. */
  lemma ClashesReportedSeparately(r: AccountRequest, store: Store, wellFormedEmail: string -> bool)
    requires OrganizationHasEmail(store, r.email) && UserHasEmail(store, r.email)
    ensures exists i, j ::
              && 0 <= i < |Errors(r, store, wellFormedEmail)| && 0 <= j < |Errors(r, store, wellFormedEmail)| && i != j
              && Errors(r, store, wellFormedEmail)[i] == Error(EmailField, UsedByOrganization)
              && Errors(r, store, wellFormedEmail)[j] == Error(EmailField, UsedByUser)
  {
    var errs := Errors(r, store, wellFormedEmail);
    EmailErrors(r, store, wellFormedEmail);
    var i :| 0 <= i < |errs| && errs[i] == Error(EmailField, UsedByOrganization);
    var j :| 0 <= j < |errs| && errs[j] == Error(EmailField, UsedByUser);
    assert i != j;
  }

  /** Re-validating a stored record does not clash with its own row: only a
      row with another id and the same email makes the email taken. */
  lemma UniquenessExcludesSelf(r: AccountRequest, store: Store, wellFormedEmail: string -> bool)
    requires Persisted(r)
    requires forall x :: x in store.requests && x.email == r.email ==> x.id == r.id
    ensures Error(EmailField, Taken) !in Errors(r, store, wellFormedEmail)
  {
    EmailErrors(r, store, wellFormedEmail);
  }

  /** An unsaved record clashes with any stored row of the same email, even
      an otherwise identical copy of itself. */
  lemma UnsavedRecordClashesWithStoredEmail(r: AccountRequest, x: AccountRequest, store: Store, wellFormedEmail: string -> bool)
    requires !Persisted(r)
    requires x in store.requests && x.email == r.email
    ensures Error(EmailField, Taken) in Errors(r, store, wellFormedEmail)
    ensures !Valid(r, store, wellFormedEmail)
  {
    EmailErrors(r, store, wellFormedEmail);
  }
}

=== FILE: wrappers.dfy ===
/** The two failure-carrying wrappers the model uses in place of Ruby's `nil`
    returns and raised exceptions. */
module Wrappers {

  /** A value that may be absent (Ruby's `nil`). */
  datatype Option<+T> = None | Some(value: T)

  /** The outcome of an operation that can fail with an error value
      (an exception in the Ruby code). */
  datatype Result<+R, +E> = Success(value: R) | Failure(error: E)
}
